=== FILE: README.md ===
# Mesh health receipt — a Dafny model

This project models the core of `scripts/emit_receipt.js`. The script reads a
batch of mesh telemetry events and writes one health "receipt". The pipeline
has five parts:

- **Window reducer.** It keeps the events of the trailing window. It folds
  them into Sets of sent ids, delivered ids and peers, arrays of latency and
  hop samples, and a radio configuration (last write wins per field). From
  these it derives the delivery ratio, p50, p95 and the median hop count.
- **Quantile estimator.** It sorts a copy of the sample and interpolates
  linearly at position `(n-1)*q`.
- **Health classifier.** It checks red first, then green, and otherwise
  gives amber.
- **Remediation advisor.** It chooses a reason (`why`), an action (`so`) and
  a structured patch (`suggestPatch`). All three follow the same ordered
  branches: delivery shortfall, then latency overage, then the low-sample
  fallback.
- **Receipt assembly.** It builds three evidence lines, a caveat only when
  the verdict is not green, and a `next_try` patch that is null only when
  green.

Files and modules:

- `numeric.dfy` (`Numeric`): the JavaScript conversions `x|0` (truncation
  toward zero), `Math.round` and `Math.max`.
- `quantile.dfy` (`Quantiles`): the sorted copy, stated as an ascending
  permutation, and the interpolating quantile.
- `telemetry.dfy` (`Telemetry`): events as a datatype with optional fields,
  and the window filter. It also holds the specification of every
  accumulator: the id Sets as set comprehensions, the samples, and the radio
  fold.
- `reducer.dfy` (`Reducer`): the reducer loop as a method, proved against
  those specifications, plus the derived statistics.
- `health.dfy` (`Health`): thresholds and the classifier.
- `advisor.dfy` (`Advisor`): diagnosis, reason, action and patch.
- `receipt.dfy` (`Receipts`): the receipt value, and the main routine as a
  method. Its status, reason and action blocks are two small methods
  (`ChooseStatus`, `ChooseAdvice`) in which `status`, `why` and `so` are
  variables overwritten by branches, as in the script.

The clock reading `T`, the window length and the thresholds are parameters.
`DefaultWindowSec`, `DefaultRadio` and `DefaultThresholds` hold the script's
own values, and the scenario lemmas of `Receipts` use them.

Places where the code differs from what one might expect:

- `e.ts || T` treats a timestamp of `0` like a missing one: the event counts
  as happening "now". Such an event is kept whenever `windowSec >= 0`
  (`Telemetry.WindowKeeps`).
- The delivery ratio is `delivered.size / sent.size` with no intersection.
  One might expect `delivery_success ∈ [0,1]`; it does not hold in
  general. `Reducer.DeliveryCanExceedOne` exhibits a ratio of 2.
  `Reducer.DeliveryAtMostOne` proves the bound when every delivered id was
  also sent.
- When Wi-Fi Direct is already on, the delivery-shortfall action reads
  "increase TTL to 4; shorten adv interval (−100ms)". The patch, however,
  raises `radio.tx_dbm` by 3 and sets no TTL
  (`Advisor.BoostedActionAndPatchDiffer`).
- The fallback reason "mesh unstable (low samples)" is reached only when the
  latency sample is empty, provided the delivery threshold is at least 0.20
  (`Advisor.FallbackOnlyWithoutSamples`). An empty log has delivery 0, which
  is below `TH.delivery`, and the delivery check (line 86) comes before the
  fallback (line 88). So it gets the delivery-shortfall reason, not the
  fallback (`Receipts.EmptyLogReceipt`).
- The delivery reason rounds both sides, so it can read "delivery 95% < 95%":
  a delivery of 0.949 is below the 0.95 target but rounds to 95
  (`Advisor.DeliveryReasonCanTie`).
- A patch `to` is a plain JavaScript number or boolean, so whole and
  fractional numbers are one kind (`Advisor.PatchValue`). A two-entry patch
  tells its branch by its first key. A single `adv_interval_ms` entry does
  not: the latency branch and the fallback can both suggest
  `[{radio.adv_interval_ms: 600}]` (`Advisor.PatchShapesOverlap`,
  `Advisor.LatencyAndFallbackPatchesCollide`).

## Model

| member | source | states |
|---|---|---|
| `Numeric.Trunc` | scripts/emit_receipt.js:123-125 | `x|0` truncates toward zero: the result is within 1 of `x`, on the side of zero |
| `Numeric.JsRound` | scripts/emit_receipt.js:118-119 | `Math.round` gives the integer `n` with `n - 0.5 <= x < n + 0.5` |
| `Numeric.Max` | scripts/emit_receipt.js:146 | `Math.max` is an upper bound of both arguments and equals one of them |
| `Quantiles.Insert` | scripts/emit_receipt.js:12 | inserting into a sorted sequence keeps it sorted and adds exactly one copy of the element |
| `Quantiles.SortAscending` | scripts/emit_receipt.js:12 | the sorted copy is ascending and has the same multiset of elements as the input |
| `Quantiles.Position` | scripts/emit_receipt.js:13 | the interpolation position `(n-1)*q` lies in `[0, n-1]` |
| `Quantiles.Quantile` | scripts/emit_receipt.js:10-11 | an empty sample gives 0 |
| `Quantiles.Lerp` | scripts/emit_receipt.js:16 | `a[base] + rest*(a[base+1]-a[base])`: a fraction 0 gives the first point, and equal points give that point (partners: `LerpAtOne`, `LerpBetween`, `LerpBetweenDescending`, `LerpMonotone`) |
| `Quantiles.LerpAtOne` | scripts/emit_receipt.js:16 | the whole way from the first point gives the second |
| `Quantiles.LerpBetween` | scripts/emit_receipt.js:14-16 | a fraction in [0,1] of the way between two ordered elements lands between them |
| `Quantiles.LerpBetweenDescending` | scripts/emit_receipt.js:14-16 | from a higher element down to a lower one, a fraction in [0,1] of the way also lands between them |
| `Quantiles.Interpolate` | scripts/emit_receipt.js:13-16 | `base = floor((n-1)*q)` is a valid index; past the last element the result is `a[base]`; otherwise it lies between `a[base]` and `a[base+1]`, in whichever order they come |
| `Quantiles.LerpMonotone` | scripts/emit_receipt.js:14-16 | a larger fraction of the way between two ordered elements lands no lower |
| `Quantiles.InterpolateBracket` | scripts/emit_receipt.js:13-16 | over a sorted sample the result lies between `a[base]` and `a[base+1]`; past the end it is `a[base]` |
| `Quantiles.InterpolateWithin` | scripts/emit_receipt.js:13-16 | over a sorted sample the result lies between the first and last elements |
| `Quantiles.QuantileWithinRange` | scripts/emit_receipt.js:10-17 | for a non-empty sample and `q` in [0,1], the quantile lies between the minimum and the maximum |
| `Quantiles.InterpolateAtZero` | scripts/emit_receipt.js:13-16 | at `q = 0` the interpolation is the first element |
| `Quantiles.QuantileAtZero` | scripts/emit_receipt.js:10-17 | `q = 0` gives the sample minimum |
| `Quantiles.QuantileAtOne` | scripts/emit_receipt.js:10-17 | `q = 1` gives the sample maximum (the `a[base+1] === undefined` case) |
| `Quantiles.QuantileSingleton` | scripts/emit_receipt.js:10-17 | `[x]` gives `x` for every `q` in [0,1] |
| `Quantiles.InterpolateMonotone` | scripts/emit_receipt.js:13-16 | over a sorted sample the interpolation is monotone in `q` |
| `Quantiles.QuantileMonotone` | scripts/emit_receipt.js:10-17 | the quantile is monotone in `q`, so p50 <= p95 |
| `Quantiles.SortAscendingOfSorted` | scripts/emit_receipt.js:12 | sorting an already ascending sample leaves it unchanged |
| `Quantiles.QuantileIgnoresOrder` | scripts/emit_receipt.js:10-17 | the quantile depends only on the multiset of samples, because it sorts a copy |
| `Quantiles.QuantileReferenceMedian` | scripts/emit_receipt.js:10-17 | `quantile([10,20,30,40], 0.5) = 25`, halfway between 20 and 30 |
| `Quantiles.QuantileReferenceMax` | scripts/emit_receipt.js:10-17 | `quantile([10,20,30,40], 1) = 40`, the last element |
| `Telemetry.EffectiveTs` | scripts/emit_receipt.js:49 | `e.ts || T`: a present non-zero timestamp is used, a missing or zero one becomes `T` |
| `Telemetry.InWindow` | scripts/emit_receipt.js:49 | an event is in the window iff it has no truthy `ts` and `windowSec >= 0`, or `T - ts <= windowSec` |
| `Telemetry.Window` | scripts/emit_receipt.js:49 | the filter keeps at most as many events as it is given |
| `Telemetry.WindowKeeps` | scripts/emit_receipt.js:49 | an event is kept iff it has no truthy `ts` and `windowSec >= 0`, or `T - ts <= windowSec` |
| `Telemetry.WindowConcat` | scripts/emit_receipt.js:49 | the filter distributes over concatenation, so kept events keep their order |
| `Telemetry.Ids` | scripts/emit_receipt.js:60-66 | what the `sent`, `delivered` and `peers` Sets hold: empty for no events, and the key of every counted event is in it (partners: `IdsSnoc`, `IdsBounded`, and the loop of `Reduce`) |
| `Telemetry.IdsSnoc` | scripts/emit_receipt.js:60-66 | one more event adds its id or peer to the matching Set exactly when its kind matches and the key is truthy |
| `Telemetry.RepeatCountsOnce` | scripts/emit_receipt.js:60-66 | a repeated sent id, delivered id or peer leaves the Set unchanged |
| `Telemetry.UncountedIgnored` | scripts/emit_receipt.js:60-66 | an event with a missing or empty `id`/`peer`, or of another kind, leaves the Set unchanged |
| `Telemetry.IdsBounded` | scripts/emit_receipt.js:60-66 | a Set holds no more keys than there are counted events |
| `Telemetry.Samples` | scripts/emit_receipt.js:61-65 | the `latencies` / `hopsArr` pushes over the kept events, in order; there are no more samples than delivered events with a truthy id (partner: `SampleProvenance`, and the loop of `Reduce`) |
| `Telemetry.SampleProvenance` | scripts/emit_receipt.js:61-65 | every sample is the numeric field of some kept delivered event with a truthy id |
| `Telemetry.Merge` | scripts/emit_receipt.js:67 | after `{...radio, ...e}` each radio field is the event's value if the event sets it, else the old value; a non-radio event changes nothing |
| `Telemetry.RadioAfter` | scripts/emit_receipt.js:57-67 | the radio after folding `{...radio, ...e}` from the seed: the seed itself when there are no radio events (partners: `RadioLastWriteWins`, `RadioUnwrittenKeepsSeed`, and the loop of `Reduce`) |
| `Telemetry.RadioLastWriteWins` | scripts/emit_receipt.js:57-67 | each radio field takes the value from the last radio event that sets it |
| `Telemetry.RadioUnwrittenKeepsSeed` | scripts/emit_receipt.js:57-67 | a radio field that no event sets keeps its seed value `{0, 600, 3, false}` |
| `Reducer.StatsOf` | scripts/emit_receipt.js:51-68 | the folded Sets hold at most one key per counted event, and there are at most as many latency and hop samples as counted deliveries |
| `Reducer.WindowStats.Delivery` | scripts/emit_receipt.js:70 | the ratio is non-negative; 0 with no sends; otherwise ratio × sent ids = delivered ids |
| `Reducer.WindowStats.P50` | scripts/emit_receipt.js:71 | 0 with no latency sample, otherwise between the smallest and the largest latency |
| `Reducer.WindowStats.P95` | scripts/emit_receipt.js:72 | 0 with no latency sample, otherwise between the smallest and the largest latency |
| `Reducer.WindowStats.MedianHops` | scripts/emit_receipt.js:73 | 0 with no hop sample, otherwise between the fewest and the most hops |
| `Reducer.DeliveryRatio` | scripts/emit_receipt.js:70 | the ratio is 0 with no sends; otherwise ratio × sent = delivered |
| `Reducer.Reduce` | scripts/emit_receipt.js:49-68 | the loop leaves each accumulator equal to its specification over the kept events |
| `Reducer.DeliveryWithoutSends` | scripts/emit_receipt.js:70 | no sent ids gives delivery 0 |
| `Reducer.DeliveryAtMostOne` | scripts/emit_receipt.js:70 | delivery lies in [0,1] when the delivered ids are a subset of the sent ids |
| `Reducer.DeliveryCanExceedOne` | scripts/emit_receipt.js:60-70 | two delivered ids with one send give delivery 2 |
| `Reducer.InertEventIgnored` | scripts/emit_receipt.js:59-68 | an event without a truthy key that is not a radio event changes no accumulator |
| `Reducer.RepeatedSendIgnored` | scripts/emit_receipt.js:60 | sending an already-sent id changes no accumulator |
| `Reducer.RepeatedDeliveryKeepsRatio` | scripts/emit_receipt.js:61-64 | a repeated delivery keeps the ratio and adds one latency sample only if it carries a latency |
| `Reducer.EmptyLogDefaults` | scripts/emit_receipt.js:51-73 | with no events: delivery, quantiles and peer count are 0, and the radio is the seed |
| `Reducer.MedianAtMostP95` | scripts/emit_receipt.js:71-72 | p50 <= p95 |
| `Health.Classify` | scripts/emit_receipt.js:79-81 | red iff delivery < 0.20 or no latency sample; green only with samples and both thresholds met |
| `Health.GreenExactly` | scripts/emit_receipt.js:79-81 | green iff not red and `delivery >= TH.delivery` and `p95 <= TH.p95_ms` |
| `Health.AmberExactly` | scripts/emit_receipt.js:79-81 | amber iff not red and some threshold is missed |
| `Health.EmptySampleIsRed` | scripts/emit_receipt.js:80 | delivery 0.96 with no latencies is red, for every p95 |
| `Health.ClassifyMonotone` | scripts/emit_receipt.js:79-81 | higher delivery or lower p95 never gives a worse verdict |
| `Advisor.Diagnose` | scripts/emit_receipt.js:85-100 | healthy iff green; otherwise delivery shortfall iff below `TH.delivery`, else latency overage iff `p95 > TH.p95_ms`, else the fallback |
| `Advisor.ReasonFor` | scripts/emit_receipt.js:84-89 | empty iff green; otherwise the delivery, latency or fallback reason exactly on that branch; the rounded percent does not exceed the rounded target |
| `Advisor.ActionFor` | scripts/emit_receipt.js:92-103 | "hold parameters" iff green; otherwise one action per branch; the boosted text iff delivery shortfall with Wi-Fi Direct on |
| `Advisor.DeliveryReasonCanTie` | scripts/emit_receipt.js:86 | a delivery of 0.949 against the 0.95 target gives the reason "delivery 95% < 95%", since both sides are rounded |
| `Advisor.ReasonAndActionAgree` | scripts/emit_receipt.js:84-103 | the reason and the action report the same branch |
| `Advisor.ShortenedInterval` | scripts/emit_receipt.js:146 | the suggested interval is at least 200, and is either 200 or `(adv|0) - 100` |
| `Advisor.SuggestPatch` | scripts/emit_receipt.js:141-154 | 1 or 2 entries; the last sets `adv_interval_ms` to a number; a ttl entry is `ttl+1 <= ttl_max`; on the delivery and latency branches that interval is >= 200, on the fallback it is the current interval unchanged |
| `Advisor.PatchFollowsDiagnosis` | scripts/emit_receipt.js:143-153 | when not green, the patch has the shape of the branch that the reason and the action take |
| `Advisor.PatchShapesOverlap` | scripts/emit_receipt.js:143-152 | two branch shapes that fit the same patch are the same branch when the patch has two entries; otherwise the patch is one `adv_interval_ms` entry and the branches are the latency overage and the fallback |
| `Advisor.LatencyAndFallbackPatchesCollide` | scripts/emit_receipt.js:147-152 | an amber latency overage (TTL 4, interval 700) and a red fallback (interval 600) serialise the same patch `[{radio.adv_interval_ms: 600}]` |
| `Advisor.DeliveryShortfallPatch` | scripts/emit_receipt.js:143-146 | exactly two entries: `wifi_direct: true` if off, else `tx_dbm: tx+3`; then `adv_interval_ms: max(200, adv-100)` |
| `Advisor.LatencyOveragePatch` | scripts/emit_receipt.js:147-149 | a ttl entry appears iff `ttl < ttl_max` and median hops < 3; the last entry is `max(200, adv-100)` |
| `Advisor.FallbackPatch` | scripts/emit_receipt.js:150-151 | the fallback is the single entry `adv_interval_ms` left unchanged |
| `Advisor.BoostedActionAndPatchDiffer` | scripts/emit_receipt.js:95 | with Wi-Fi Direct on, the action speaks of TTL, while the patch raises `tx_dbm` and has no ttl entry |
| `Advisor.FallbackOnlyWithoutSamples` | scripts/emit_receipt.js:79-88 | given `TH.delivery >= 0.20`, the low-sample fallback implies an empty latency sample |
| `Receipts.Assemble` | scripts/emit_receipt.js:106-135 | three `because` lines; `but` empty iff green; `next_try` null iff green |
| `Receipts.ReceiptFor` | scripts/emit_receipt.js:79-135 | the receipt is red iff delivery < 0.20 or no latency sample, green iff not red and both thresholds are met; it carries the fixed claim and model tag, the thresholds, the window length and the peer count |
| `Receipts.ChooseStatus` | scripts/emit_receipt.js:79-81 | the overwritten `status` ends as the classifier's verdict |
| `Receipts.ChooseAdvice` | scripts/emit_receipt.js:84-103 | the overwritten `why` and `so` end as the reason and the action of the advisor |
| `Receipts.EmitReceipt` | scripts/emit_receipt.js:45-135 | the overwritten `status`/`why`/`so` and the assembled receipt equal the classifier's and advisor's specification over the reduced window |
| `Receipts.ReceiptConsistent` | scripts/emit_receipt.js:106-135 | every receipt: 3 evidence lines, caveat and patch iff not green, and then reason, action and patch agree on one branch |
| `Receipts.HealthyWindowIsGreen` | scripts/emit_receipt.js:70-133 | 24 of 25 delivered with all latencies <= 2000 ms gives green, no caveat, null `next_try` |
| `Receipts.LowDeliveryAdvice` | scripts/emit_receipt.js:70-146 | 10 of 25 delivered with Wi-Fi Direct off gives the caveat "delivery 40% < 95%" and a first patch entry `wifi_direct: true` |
| `Receipts.EmptyLogReceipt` | scripts/emit_receipt.js:49-146 | an empty log is red, takes the delivery-shortfall reason, and patches `wifi_direct: true`, `adv_interval_ms: 500` |

## Left out

- Event loading (lines 19-42): the file existence and size checks, `readFileSync` and JSON-lines parsing are I/O. The model takes a sequence of well-typed events.
- The synthetic event generator (lines 21-38) uses `Math.random`. It is nondeterministic test scaffolding.
- The clock `now()` (lines 7, 47) is replaced by the parameter `now`.
- Writing the receipt file and the two console lines (lines 137-139), including the one-line summary, are output only.
- Number-to-string formatting is not modelled: `toFixed(1)`, `toFixed(4)`, and the template strings. Evidence lines and reasons are datatypes that carry the numbers they print. `telem.delivery_success` keeps the exact ratio rather than 4 decimals.
- `Numeric.Trunc`: models `|0` only for values inside the 32-bit range; ToInt32 wrap-around is not modelled.
- IEEE-754 arithmetic, NaN and infinities are not modelled. Latencies, hops, delivery, `tx_dbm` and `adv_interval_ms` are exact `real`s; `ttl` is an `int`. So the `|| 0` on the median hops is the identity.
- Values of the wrong JSON type (`null` fields, string timestamps, non-boolean `wifi_direct`) are outside the model, since events are well-typed. Fields the script never reads (`rssi`) are dropped.
- The spread `{...radio, ...e}` also copies `type` and `ts` into `radio` (line 67). Only the four radio fields are ever read, so the model keeps those four.
- `suggestPatch` receives `status` but never reads it. The model's `SuggestPatch` omits that parameter.
- The input array is never mutated: the model works on values, so the copy made by `slice()` needs no separate statement.

=== FILE: advisor.dfy ===
/**
 * The remediation advisor: one reason (`why`), one action (`so`) and one
 * structured patch (`suggestPatch`), all chosen by the same ordered branches:
 * delivery shortfall, then latency overage, then the low-sample fallback.
 */
module Advisor {
  import opened Telemetry
  import opened Health
  import opened Numeric

  /** The branch the advisor takes. */
  datatype Diagnosis = Healthy | DeliveryShortfall | LatencyOverage | LowSamples

  /** Green needs no advice; otherwise delivery is checked before latency, and the rest falls back. */
  function Diagnose(status: Status, delivery: real, p95: real, th: Thresholds): (d: Diagnosis)
    ensures d == Healthy <==> status == Green
    ensures d == DeliveryShortfall <==> status != Green && delivery < th.delivery
    ensures d == LatencyOverage <==> status != Green && th.delivery <= delivery && th.p95Ms < p95
    ensures d == LowSamples <==> status != Green && th.delivery <= delivery && p95 <= th.p95Ms
  {
    if status == Green then Healthy
    else if delivery < th.delivery then DeliveryShortfall
    else if p95 > th.p95Ms then LatencyOverage
    else LowSamples
  }

  // ---------------------------------------------------------------- reason

  /**
   * The `why` string, by the numbers it shows: `delivery <percent>% < <target>%`,
   * `p95 latency <ms>ms > <limit>ms`, `mesh unstable (low samples)`, or empty.
   */
  datatype Reason =
    | NoReason
    | DeliveryBelow(percent: int, targetPercent: int)
    | LatencyAbove(p95Ms: int, limitMs: real)
    | MeshUnstable

  function ReasonFor(status: Status, delivery: real, p95: real, th: Thresholds): (why: Reason)
    ensures why == NoReason <==> status == Green
    ensures why.DeliveryBelow? <==> Diagnose(status, delivery, p95, th) == DeliveryShortfall
    ensures why.LatencyAbove? <==> Diagnose(status, delivery, p95, th) == LatencyOverage
    ensures why == MeshUnstable <==> Diagnose(status, delivery, p95, th) == LowSamples
    ensures why.DeliveryBelow? ==> why.percent <= why.targetPercent
    ensures why.LatencyAbove? ==> why.limitMs == th.p95Ms < p95
    ensures why.LatencyAbove? && 0.0 <= p95 ==> why.p95Ms as real <= p95 < why.p95Ms as real + 1.0
  {
    match Diagnose(status, delivery, p95, th)
    case Healthy => NoReason
    case DeliveryShortfall => DeliveryBelow(JsRound(delivery * 100.0), JsRound(th.delivery * 100.0))
    case LatencyOverage => LatencyAbove(Trunc(p95), th.p95Ms)
    case LowSamples => MeshUnstable
  }

  /**
   * Both numbers of the delivery reason are rounded, so the reason can read
   * "delivery 95% < 95%": a delivery of 0.949 rounds to the 95% target.
   */
  lemma DeliveryReasonCanTie()
    ensures ReasonFor(Amber, 0.949, 100.0, DefaultThresholds) == DeliveryBelow(95, 95)
  {
    assert JsRound(0.949 * 100.0) == 95 by {
      assert 0.949 * 100.0 + 0.5 == 95.4;
    }
    assert JsRound(0.95 * 100.0) == 95 by {
      assert 0.95 * 100.0 + 0.5 == 95.5;
    }
  }

  /** The branch a reason reports. */
  function ReasonBranch(why: Reason): Diagnosis {
    match why
    case NoReason => Healthy
    case DeliveryBelow(_, _) => DeliveryShortfall
    case LatencyAbove(_, _) => LatencyOverage
    case MeshUnstable => LowSamples
  }

  // ---------------------------------------------------------------- action

  const HoldAction := "hold parameters; monitor battery"
  const EnableWifiAction := "enable Wi-Fi Direct or increase TX power +3 dB"
  const BoostedAction := "increase TTL to 4; shorten adv interval (\U{2212}100ms)"
  const LatencyAction := "shorten adv interval (\U{2212}100ms) or add 1 hop TTL if median_hops < 3"
  const SteadyAction := "keep radio steady; gather more samples"

  /** The `so` string: one lever per branch; on a delivery shortfall it depends on Wi-Fi Direct. */
  function ActionFor(status: Status, delivery: real, p95: real, radio: Radio, th: Thresholds): (so: string)
    ensures so == HoldAction <==> status == Green
    ensures so in {EnableWifiAction, BoostedAction} <==> Diagnose(status, delivery, p95, th) == DeliveryShortfall
    ensures so == LatencyAction <==> Diagnose(status, delivery, p95, th) == LatencyOverage
    ensures so == SteadyAction <==> Diagnose(status, delivery, p95, th) == LowSamples
    ensures so == BoostedAction <==> Diagnose(status, delivery, p95, th) == DeliveryShortfall && radio.wifiDirect
  {
    match Diagnose(status, delivery, p95, th)
    case Healthy => HoldAction
    case DeliveryShortfall => if radio.wifiDirect then BoostedAction else EnableWifiAction
    case LatencyOverage => LatencyAction
    case LowSamples => SteadyAction
  }

  /** The branch an action string belongs to. */
  function ActionBranch(so: string): Diagnosis {
    if so in {EnableWifiAction, BoostedAction} then DeliveryShortfall
    else if so == LatencyAction then LatencyOverage
    else if so == SteadyAction then LowSamples
    else Healthy
  }

  /** The reason and the action always report the same branch, the one the advisor diagnosed. */
  lemma ReasonAndActionAgree(status: Status, delivery: real, p95: real, radio: Radio, th: Thresholds)
    ensures ReasonBranch(ReasonFor(status, delivery, p95, th)) == Diagnose(status, delivery, p95, th)
    ensures ActionBranch(ActionFor(status, delivery, p95, radio, th)) == Diagnose(status, delivery, p95, th)
  {
  }

  // ---------------------------------------------------------------- patch

  /**
   * The `to` of a patch entry, as `JSON.stringify` writes it: a boolean or a
   * number. Whole and fractional numbers are one kind, as in JavaScript.
   */
  datatype PatchValue = SetFlag(on: bool) | SetNumber(x: real)

  /** One `{key, to}` entry of `next_try.patch`. */
  datatype PatchEntry = PatchEntry(key: string, to: PatchValue)

  const WifiDirectKey := "radio.wifi_direct"
  const TxDbmKey := "radio.tx_dbm"
  const TtlKey := "radio.ttl"
  const AdvIntervalKey := "radio.adv_interval_ms"

  /** `Math.max(200, (adv|0) - 100)`: 100 ms shorter, never below 200 ms. */
  function ShortenedInterval(adv: real): (ms: int)
    ensures 200 <= ms
    ensures Trunc(adv) - 100 <= ms
    ensures ms == 200 || ms == Trunc(adv) - 100
  {
    Max(200, Trunc(adv) - 100)
  }

  /**
   * `suggestPatch`. The script passes the status as well but never reads it;
   * it is called only when the status is not green.
   */
  function SuggestPatch(delivery: real, p95: real, medianHops: real, radio: Radio, th: Thresholds)
    : (patch: seq<PatchEntry>)
    ensures 1 <= |patch| <= 2
    ensures patch[|patch| - 1].key == AdvIntervalKey && patch[|patch| - 1].to.SetNumber?
    ensures forall k :: 0 <= k < |patch| && patch[k].key == TtlKey ==>
      patch[k].to == SetNumber((radio.ttl + 1) as real) && radio.ttl + 1 <= th.ttlMax
    ensures delivery < th.delivery || th.p95Ms < p95 ==> 200.0 <= patch[|patch| - 1].to.x
    ensures th.delivery <= delivery && p95 <= th.p95Ms ==>
      patch[|patch| - 1].to.x == radio.advIntervalMs
  {
    var shorter := PatchEntry(AdvIntervalKey, SetNumber(ShortenedInterval(radio.advIntervalMs) as real));
    if delivery < th.delivery then
      var lever :=
        if !radio.wifiDirect then PatchEntry(WifiDirectKey, SetFlag(true))
        else PatchEntry(TxDbmKey, SetNumber((Trunc(radio.txDbm) + 3) as real));
      [lever, shorter]
    else if p95 > th.p95Ms then
      (if radio.ttl < th.ttlMax && medianHops < 3.0 then [PatchEntry(TtlKey, SetNumber((radio.ttl + 1) as real))] else [])
      + [shorter]
    else
      [PatchEntry(AdvIntervalKey, SetNumber(radio.advIntervalMs))]
  }

  /** The patch's shape, by its keys, for each branch of the advisor. */
  predicate PatchShape(d: Diagnosis, patch: seq<PatchEntry>) {
    match d
    case Healthy => false
    case DeliveryShortfall =>
      |patch| == 2 && patch[0].key in {WifiDirectKey, TxDbmKey} && patch[1].key == AdvIntervalKey
    case LatencyOverage =>
      1 <= |patch| <= 2 && (|patch| == 2 ==> patch[0].key == TtlKey) &&
      patch[|patch| - 1].key == AdvIntervalKey
    case LowSamples =>
      |patch| == 1 && patch[0].key == AdvIntervalKey
  }

  /** When advice is given, the patch has the shape of the branch the reason and the action name. */
  lemma PatchFollowsDiagnosis(status: Status, delivery: real, p95: real, medianHops: real,
                              radio: Radio, th: Thresholds)
    requires status != Green
    ensures PatchShape(Diagnose(status, delivery, p95, th), SuggestPatch(delivery, p95, medianHops, radio, th))
  {
  }

  /**
   * A two-entry patch names its branch by its first key. A single
   * `adv_interval_ms` entry fits both the latency and the fallback branch.
   */
  lemma PatchShapesOverlap(d1: Diagnosis, d2: Diagnosis, patch: seq<PatchEntry>)
    requires PatchShape(d1, patch) && PatchShape(d2, patch)
    ensures |patch| == 2 ==> d1 == d2
    ensures d1 != d2 ==> |patch| == 1 && {d1, d2} == {LatencyOverage, LowSamples}
  {
  }

  /**
   * The serialised patches of the two branches can coincide: a latency
   * overage at TTL 4 with a 700 ms interval and the low-sample fallback at
   * 600 ms both suggest `[{radio.adv_interval_ms: 600}]`.
   */
  lemma LatencyAndFallbackPatchesCollide()
    ensures var th := DefaultThresholds;
      var late := Classify(0.96, 2500.0, 5, th);
      var empty := Classify(0.96, 0.0, 0, th);
      late == Amber && Diagnose(late, 0.96, 2500.0, th) == LatencyOverage &&
      empty == Red && Diagnose(empty, 0.96, 0.0, th) == LowSamples &&
      SuggestPatch(0.96, 2500.0, 1.0, Radio(0.0, 700.0, 4, false), th) ==
        SuggestPatch(0.96, 0.0, 0.0, Radio(0.0, 600.0, 3, false), th) ==
        [PatchEntry(AdvIntervalKey, SetNumber(600.0))]
  {
    assert Trunc(700.0) == 700;
  }

  /** Delivery shortfall: turn on Wi-Fi Direct if it is off, else add 3 dBm; then shorten the interval. */
  lemma DeliveryShortfallPatch(delivery: real, p95: real, medianHops: real, radio: Radio, th: Thresholds)
    requires delivery < th.delivery
    ensures var patch := SuggestPatch(delivery, p95, medianHops, radio, th);
      |patch| == 2 &&
      patch[0] == (if radio.wifiDirect then PatchEntry(TxDbmKey, SetNumber((Trunc(radio.txDbm) + 3) as real))
                   else PatchEntry(WifiDirectKey, SetFlag(true))) &&
      patch[1] == PatchEntry(AdvIntervalKey, SetNumber(Max(200, Trunc(radio.advIntervalMs) - 100) as real))
  {
  }

  /** Latency overage: one more hop of TTL only below `ttl_max` with median hops under 3, then a shorter interval. */
  lemma LatencyOveragePatch(delivery: real, p95: real, medianHops: real, radio: Radio, th: Thresholds)
    requires th.delivery <= delivery && th.p95Ms < p95
    ensures var patch := SuggestPatch(delivery, p95, medianHops, radio, th);
      (exists k :: 0 <= k < |patch| && patch[k].key == TtlKey) <==>
        radio.ttl < th.ttlMax && medianHops < 3.0
    ensures var patch := SuggestPatch(delivery, p95, medianHops, radio, th);
      patch[|patch| - 1] == PatchEntry(AdvIntervalKey, SetNumber(Max(200, Trunc(radio.advIntervalMs) - 100) as real))
  {
    var patch := SuggestPatch(delivery, p95, medianHops, radio, th);
    if radio.ttl < th.ttlMax && medianHops < 3.0 {
      assert patch[0].key == TtlKey;
    }
  }

  /** Fallback: a single entry that leaves the interval as it is, so the patch is never empty. */
  lemma FallbackPatch(delivery: real, p95: real, medianHops: real, radio: Radio, th: Thresholds)
    requires th.delivery <= delivery && p95 <= th.p95Ms
    ensures SuggestPatch(delivery, p95, medianHops, radio, th) ==
      [PatchEntry(AdvIntervalKey, SetNumber(radio.advIntervalMs))]
  {
  }

  /**
   * With Wi-Fi Direct already on, the delivery-shortfall action speaks of TTL
   * and the interval while the patch raises the transmit power and sets no TTL.
   */
  lemma BoostedActionAndPatchDiffer(status: Status, delivery: real, p95: real, medianHops: real,
                                    radio: Radio, th: Thresholds)
    requires status != Green && delivery < th.delivery && radio.wifiDirect
    ensures ActionFor(status, delivery, p95, radio, th) == BoostedAction
    ensures var patch := SuggestPatch(delivery, p95, medianHops, radio, th);
      patch[0].key == TxDbmKey && forall k :: 0 <= k < |patch| ==> patch[k].key != TtlKey
  {
  }

  /**
   * With a threshold of at least 0.20, the low-sample fallback is reached only
   * when the latency sample is empty: any other non-green case fails a threshold.
   */
  lemma FallbackOnlyWithoutSamples(delivery: real, p95: real, latencyCount: nat, th: Thresholds)
    requires RedDelivery <= th.delivery
    requires Diagnose(Classify(delivery, p95, latencyCount, th), delivery, p95, th) == LowSamples
    ensures latencyCount == 0
  {
  }
}

=== FILE: health.dfy ===
/**
 * The health classifier: red, then green, else amber, over the delivery
 * ratio, the 95th-percentile latency and the size of the latency sample.
 */
module Health {

  datatype Status = Red | Amber | Green

  /** The threshold configuration `TH`. */
  datatype Thresholds = Thresholds(delivery: real, p95Ms: real, ttlMax: int)

  /** `{delivery: 0.95, p95_ms: 2000, ttl_max: 4}` */
  const DefaultThresholds := Thresholds(0.95, 2000.0, 4)

  /** Below this delivery ratio the mesh is red whatever the thresholds say. */
  const RedDelivery: real := 0.20

  /** Red if delivery is below 0.20 or there is no latency sample; else green if both thresholds are met; else amber. */
  function Classify(delivery: real, p95: real, latencyCount: nat, th: Thresholds): (status: Status)
    ensures status == Red <==> delivery < RedDelivery || latencyCount == 0
    ensures status == Green ==> latencyCount > 0 && delivery >= th.delivery && p95 <= th.p95Ms
  {
    if delivery < RedDelivery || latencyCount == 0 then Red
    else if delivery >= th.delivery && p95 <= th.p95Ms then Green
    else Amber
  }

  /** Green holds exactly when red's condition fails and both thresholds are met. */
  lemma GreenExactly(delivery: real, p95: real, latencyCount: nat, th: Thresholds)
    ensures Classify(delivery, p95, latencyCount, th) == Green <==>
      RedDelivery <= delivery && latencyCount > 0 && th.delivery <= delivery && p95 <= th.p95Ms
  {
  }

  /** Amber is the fallback: not red, and some threshold missed. */
  lemma AmberExactly(delivery: real, p95: real, latencyCount: nat, th: Thresholds)
    ensures Classify(delivery, p95, latencyCount, th) == Amber <==>
      RedDelivery <= delivery && latencyCount > 0 && (delivery < th.delivery || th.p95Ms < p95)
  {
  }

  /** Red is checked first: a delivery of 0.96 with no latency sample is red, not green, whatever p95 is. */
  lemma EmptySampleIsRed(p95: real)
    ensures Classify(0.96, p95, 0, DefaultThresholds) == Red
  {
  }

  /** Order of the verdicts from worst to best. */
  function Rank(s: Status): nat {
    match s
    case Red => 0
    case Amber => 1
    case Green => 2
  }

  /** A better delivery ratio or a lower p95 never gives a worse verdict. */
  lemma ClassifyMonotone(d1: real, d2: real, p1: real, p2: real, latencyCount: nat, th: Thresholds)
    requires d1 <= d2 && p2 <= p1
    ensures Rank(Classify(d1, p1, latencyCount, th)) <= Rank(Classify(d2, p2, latencyCount, th))
  {
  }
}

=== FILE: numeric.dfy ===
/** JavaScript number-to-integer conversions used by the receipt script. */
module Numeric {

  /** `x|0` for values inside the 32-bit range: truncation toward zero. */
  function Trunc(x: real): (n: int)
    ensures 0.0 <= x ==> 0 <= n && n as real <= x < n as real + 1.0
    ensures x < 0.0 ==> n <= 0 && n as real - 1.0 < x <= n as real
  {
    if 0.0 <= x then x.Floor else -((-x).Floor)
  }

  /** `Math.round(x)`: the nearest integer, halves rounded toward +infinity. */
  function JsRound(x: real): (n: int)
    ensures n as real - 0.5 <= x < n as real + 0.5
  {
    (x + 0.5).Floor
  }

  /** `Math.max(a, b)` on integers. */
  function Max(a: int, b: int): (m: int)
    ensures a <= m && b <= m
    ensures m == a || m == b
  {
    if a < b then b else a
  }
}

=== FILE: quantile.dfy ===
/**
 * The quantile estimator of the receipt script: sort a copy of the sample
 * ascending and interpolate linearly at position (n-1)*q (the "linear"
 * percentile method).
 */
module Quantiles {

  ghost predicate Sorted(s: seq<real>) {
    forall i, j :: 0 <= i <= j < |s| ==> s[i] <= s[j]
  }

  /** Inserts `x` into the sorted sequence `s`, before the first larger element. */
  function Insert(x: real, s: seq<real>): (r: seq<real>)
    requires Sorted(s)
    ensures Sorted(r)
    ensures multiset(r) == multiset(s) + multiset{x}
    ensures |r| == |s| + 1
    ensures r[0] == x || (s != [] && r[0] == s[0])
  {
    if s == [] || x <= s[0] then
      [x] + s
    else
      var rest := Insert(x, s[1..]);
      assert s[0] <= rest[0];
      assert Sorted([s[0]] + rest) by {
        forall i, j | 0 <= i <= j < |rest| + 1
          ensures ([s[0]] + rest)[i] <= ([s[0]] + rest)[j]
        {
          if 0 < i {
            assert ([s[0]] + rest)[i] == rest[i - 1];
          } else if 0 < j {
            assert s[0] <= rest[0] <= rest[j - 1];
          }
        }
      }
      assert s == [s[0]] + s[1..];
      [s[0]] + rest
  }

  /** The sorted copy `arr.slice().sort((x, y) => x - y)`: ascending, same elements. */
  function SortAscending(s: seq<real>): (r: seq<real>)
    ensures Sorted(r)
    ensures multiset(r) == multiset(s)
  {
    if s == [] then []
    else
      assert s == [s[0]] + s[1..];
      Insert(s[0], SortAscending(s[1..]))
  }

  /** The smallest element of a non-empty sample. */
  function SeqMin(s: seq<real>): (m: real)
    requires |s| > 0
    ensures m in s
    ensures forall x :: x in s ==> m <= x
  {
    if |s| == 1 then s[0]
    else
      var t := SeqMin(s[1..]);
      assert forall x :: x in s ==> x == s[0] || x in s[1..];
      if s[0] <= t then s[0] else t
  }

  /** The largest element of a non-empty sample. */
  function SeqMax(s: seq<real>): (m: real)
    requires |s| > 0
    ensures m in s
    ensures forall x :: x in s ==> x <= m
  {
    if |s| == 1 then s[0]
    else
      var t := SeqMax(s[1..]);
      assert forall x :: x in s ==> x == s[0] || x in s[1..];
      if t <= s[0] then s[0] else t
  }

  /** The interpolation position (n-1)*q of the sorted sample. */
  function Position(n: nat, q: real): (pos: real)
    requires 0 < n && 0.0 <= q <= 1.0
    ensures 0.0 <= pos <= (n - 1) as real
    ensures pos == (n - 1) as real * q
  {
    var m := (n - 1) as real;
    assert m * q <= m * 1.0;
    m * q
  }

  /** Linear interpolation at position (|a|-1)*q; past the last element, the last element. */
  function Interpolate(a: seq<real>, q: real): (r: real)
    requires |a| > 0 && 0.0 <= q <= 1.0
    ensures var b := Position(|a|, q).Floor;
      0 <= b < |a| &&
      (b + 1 == |a| ==> r == a[b]) &&
      (b + 1 < |a| && a[b] <= a[b + 1] ==> a[b] <= r <= a[b + 1]) &&
      (b + 1 < |a| && a[b + 1] <= a[b] ==> a[b + 1] <= r <= a[b])
  {
    var pos := Position(|a|, q);
    var base := pos.Floor;
    var rest := pos - base as real;
    if base + 1 < |a| then
      if a[base] <= a[base + 1] then
        LerpBetween(a[base], a[base + 1], rest);
        Lerp(a[base], a[base + 1], rest)
      else
        LerpBetweenDescending(a[base], a[base + 1], rest);
        Lerp(a[base], a[base + 1], rest)
    else a[base]
  }

  /** The point a fraction t of the way from lo to hi. */
  function Lerp(lo: real, hi: real, t: real): (r: real)
    ensures t == 0.0 ==> r == lo
    ensures lo == hi ==> r == lo
  {
    lo + t * (hi - lo)
  }

  /** `quantile(arr, q)`: 0 for an empty sample, otherwise interpolation over the sorted copy. */
  function Quantile(s: seq<real>, q: real): (r: real)
    requires 0.0 <= q <= 1.0
    ensures s == [] ==> r == 0.0
  {
    if |s| == 0 then 0.0
    else
      var a := SortAscending(s);
      assert |a| == |multiset(a)| == |multiset(s)| == |s|;
      Interpolate(a, q)
  }

  lemma ProductNonNegative(x: real, d: real)
    requires 0.0 <= x && 0.0 <= d
    ensures 0.0 <= x * d
  {
  }

  lemma ProductMonotone(x: real, y: real, d: real)
    requires 0.0 <= x <= y && 0.0 <= d
    ensures x * d <= y * d
  {
    ProductNonNegative(y - x, d);
    assert y * d - x * d == (y - x) * d;
  }

  lemma PositionMonotone(n: nat, q1: real, q2: real)
    requires 0 < n && 0.0 <= q1 <= q2 <= 1.0
    ensures Position(n, q1) <= Position(n, q2)
  {
    ProductMonotone(q1, q2, (n - 1) as real);
  }

  /** The whole way from lo to hi is hi. */
  lemma LerpAtOne(lo: real, hi: real)
    ensures Lerp(lo, hi, 1.0) == hi
  {
    assert 1.0 * (hi - lo) == hi - lo;
  }

  /** Between two ordered points, a fraction in [0, 1] lands between them. */
  lemma LerpBetween(lo: real, hi: real, t: real)
    requires lo <= hi && 0.0 <= t <= 1.0
    ensures lo <= Lerp(lo, hi, t) <= hi
  {
    var gap := hi - lo;
    ProductNonNegative(t, gap);
    ProductMonotone(t, 1.0, gap);
    assert 0.0 <= t * gap <= gap;
    assert Lerp(lo, hi, t) == lo + t * gap;
  }

  /** From a higher point down to a lower one, a fraction in [0, 1] also lands between them. */
  lemma LerpBetweenDescending(lo: real, hi: real, t: real)
    requires hi <= lo && 0.0 <= t <= 1.0
    ensures hi <= Lerp(lo, hi, t) <= lo
  {
    var gap := lo - hi;
    ProductNonNegative(t, gap);
    ProductMonotone(t, 1.0, gap);
    assert 0.0 <= t * gap <= gap;
    assert hi - lo == -gap;
    ProductNegated(t, gap);
    assert t * (hi - lo) == -(t * gap);
    assert Lerp(lo, hi, t) == lo - t * gap;
  }

  lemma ProductNegated(x: real, d: real)
    ensures x * -d == -(x * d)
  {
  }

  /** A larger fraction lands no lower between two ordered points. */
  lemma LerpMonotone(lo: real, hi: real, t1: real, t2: real)
    requires lo <= hi && 0.0 <= t1 <= t2
    ensures Lerp(lo, hi, t1) <= Lerp(lo, hi, t2)
  {
    var gap := hi - lo;
    ProductMonotone(t1, t2, gap);
    assert Lerp(lo, hi, t1) == lo + t1 * gap;
    assert Lerp(lo, hi, t2) == lo + t2 * gap;
  }

  /** Over a sorted sample the interpolated value lies between the two elements it interpolates. */
  lemma InterpolateBracket(a: seq<real>, q: real)
    requires |a| > 0 && 0.0 <= q <= 1.0 && Sorted(a)
    ensures var b := Position(|a|, q).Floor;
      0 <= b < |a| &&
      a[b] <= Interpolate(a, q) &&
      (b + 1 < |a| ==> Interpolate(a, q) <= a[b + 1]) &&
      (b + 1 == |a| ==> Interpolate(a, q) == a[b]) &&
      (b + 1 < |a| ==> Interpolate(a, q) == Lerp(a[b], a[b + 1], Position(|a|, q) - b as real))
  {
    var pos := Position(|a|, q);
    var base := pos.Floor;
    var rest := pos - base as real;
    assert 0 <= base < |a| && 0.0 <= rest < 1.0;
    if base + 1 < |a| {
      LerpBetween(a[base], a[base + 1], rest);
    }
  }

  /** Interpolation over a sorted sample lies between its first and last elements. */
  lemma InterpolateWithin(a: seq<real>, q: real)
    requires |a| > 0 && 0.0 <= q <= 1.0 && Sorted(a)
    ensures a[0] <= Interpolate(a, q) <= a[|a| - 1]
  {
    InterpolateBracket(a, q);
  }

  /** The first and last elements of the sorted copy are the sample's minimum and maximum. */
  lemma SortedEnds(s: seq<real>)
    requires |s| > 0
    ensures |SortAscending(s)| == |s|
    ensures SortAscending(s)[0] == SeqMin(s)
    ensures SortAscending(s)[|s| - 1] == SeqMax(s)
  {
    var a := SortAscending(s);
    assert |a| == |multiset(a)| == |multiset(s)| == |s|;
    var lo, hi := SeqMin(s), SeqMax(s);
    assert a[0] in multiset(s) && a[|a| - 1] in multiset(s);
    assert a[0] in s && a[|a| - 1] in s;
    assert lo <= a[0] && a[|a| - 1] <= hi;
    assert lo in multiset(a) && hi in multiset(a);
    assert lo in a && hi in a;
    assert a[0] <= lo && hi <= a[|a| - 1];
  }

  /** For a non-empty sample the quantile lies between the minimum and the maximum. */
  lemma QuantileWithinRange(s: seq<real>, q: real)
    requires |s| > 0 && 0.0 <= q <= 1.0
    ensures SeqMin(s) <= Quantile(s, q) <= SeqMax(s)
  {
    SortedEnds(s);
    InterpolateWithin(SortAscending(s), q);
  }

  lemma InterpolateAtZero(a: seq<real>)
    requires |a| > 0
    ensures Interpolate(a, 0.0) == a[0]
  {
    assert Position(|a|, 0.0) == 0.0;
    assert (0.0).Floor == 0;
  }

  /** q = 0 selects the minimum of the sample. */
  lemma QuantileAtZero(s: seq<real>)
    requires |s| > 0
    ensures Quantile(s, 0.0) == SeqMin(s)
  {
    SortedEnds(s);
    InterpolateAtZero(SortAscending(s));
  }

  /** q = 1 selects the maximum of the sample. */
  lemma QuantileAtOne(s: seq<real>)
    requires |s| > 0
    ensures Quantile(s, 1.0) == SeqMax(s)
  {
    SortedEnds(s);
    var a := SortAscending(s);
    assert Position(|a|, 1.0) == (|a| - 1) as real;
    assert Position(|a|, 1.0).Floor == |a| - 1;
    assert Interpolate(a, 1.0) == a[|a| - 1];
  }

  /** A one-element sample is its own quantile whatever q is. */
  lemma QuantileSingleton(x: real, q: real)
    requires 0.0 <= q <= 1.0
    ensures Quantile([x], q) == x
  {
    QuantileWithinRange([x], q);
  }

  lemma FloorMonotone(x: real, y: real)
    requires x <= y
    ensures x.Floor <= y.Floor
  {
    assert x.Floor as real <= x <= y < y.Floor as real + 1.0;
  }

  /** Within one bracket, interpolation grows with the position inside it. */
  lemma InterpolateMonotoneSameBase(a: seq<real>, q1: real, q2: real)
    requires |a| > 0 && 0.0 <= q1 <= q2 <= 1.0 && Sorted(a)
    requires Position(|a|, q1).Floor == Position(|a|, q2).Floor < |a| - 1
    ensures Interpolate(a, q1) <= Interpolate(a, q2)
  {
    var b := Position(|a|, q1).Floor;
    PositionMonotone(|a|, q1, q2);
    InterpolateBracket(a, q1);
    InterpolateBracket(a, q2);
    var r1, r2 := Position(|a|, q1) - b as real, Position(|a|, q2) - b as real;
    assert 0.0 <= r1 <= r2;
    LerpMonotone(a[b], a[b + 1], r1, r2);
  }

  /** Interpolation over a sorted sample is monotone in q. */
  lemma InterpolateMonotone(a: seq<real>, q1: real, q2: real)
    requires |a| > 0 && 0.0 <= q1 <= q2 <= 1.0 && Sorted(a)
    ensures Interpolate(a, q1) <= Interpolate(a, q2)
  {
    var p1, p2 := Position(|a|, q1), Position(|a|, q2);
    PositionMonotone(|a|, q1, q2);
    FloorMonotone(p1, p2);
    var b1, b2 := p1.Floor, p2.Floor;
    InterpolateBracket(a, q1);
    InterpolateBracket(a, q2);
    if b1 == b2 {
      if b1 + 1 < |a| {
        InterpolateMonotoneSameBase(a, q1, q2);
      }
    } else {
      assert b1 + 1 <= b2 < |a|;
      assert a[b1 + 1] <= a[b2];
    }
  }

  /** p50 never exceeds p95: the quantile is monotone in q. */
  lemma QuantileMonotone(s: seq<real>, q1: real, q2: real)
    requires 0.0 <= q1 <= q2 <= 1.0
    ensures Quantile(s, q1) <= Quantile(s, q2)
  {
    if |s| > 0 {
      var a := SortAscending(s);
      assert |a| == |multiset(a)| == |multiset(s)| == |s|;
      InterpolateMonotone(a, q1, q2);
    }
  }

  /** Sorting an already sorted sample returns it unchanged. */
  lemma {:induction false} SortAscendingOfSorted(s: seq<real>)
    requires Sorted(s)
    ensures SortAscending(s) == s
  {
    if s != [] {
      SortAscendingOfSorted(s[1..]);
      assert s == [s[0]] + s[1..];
    }
  }

  lemma SortedTail(s: seq<real>)
    requires Sorted(s) && s != []
    ensures Sorted(s[1..])
  {
  }

  /** Two sorted sequences with the same elements start with the same (least) element. */
  lemma SortedSameHead(a: seq<real>, b: seq<real>)
    requires Sorted(a) && Sorted(b) && multiset(a) == multiset(b) && a != [] && b != []
    ensures a[0] == b[0]
  {
    assert a[0] in multiset(b) && b[0] in multiset(a);
    var i :| 0 <= i < |b| && b[i] == a[0];
    var j :| 0 <= j < |a| && a[j] == b[0];
    assert b[0] <= b[i] && a[0] <= a[j];
  }

  lemma SameTailElements(a: seq<real>, b: seq<real>)
    requires multiset(a) == multiset(b) && a != [] && b != [] && a[0] == b[0]
    ensures multiset(a[1..]) == multiset(b[1..])
  {
    assert a == [a[0]] + a[1..] && b == [b[0]] + b[1..];
    assert multiset(a) == multiset{a[0]} + multiset(a[1..]);
    assert multiset(b) == multiset{b[0]} + multiset(b[1..]);
    forall x ensures multiset(a[1..])[x] == multiset(b[1..])[x] {
      assert multiset(a)[x] == multiset{a[0]}[x] + multiset(a[1..])[x];
      assert multiset(b)[x] == multiset{b[0]}[x] + multiset(b[1..])[x];
    }
  }

  /** Two sorted sequences with the same elements are equal. */
  lemma {:induction false} SortedUnique(a: seq<real>, b: seq<real>)
    requires Sorted(a) && Sorted(b) && multiset(a) == multiset(b)
    ensures a == b
  {
    assert |a| == |multiset(a)| == |multiset(b)| == |b|;
    if a != [] {
      SortedSameHead(a, b);
      SameTailElements(a, b);
      SortedTail(a);
      SortedTail(b);
      SortedUnique(a[1..], b[1..]);
      assert a == [a[0]] + a[1..] && b == [b[0]] + b[1..];
    }
  }

  /** The quantile depends only on the multiset of samples, not on their order. */
  lemma QuantileIgnoresOrder(s: seq<real>, t: seq<real>, q: real)
    requires multiset(s) == multiset(t) && 0.0 <= q <= 1.0
    ensures Quantile(s, q) == Quantile(t, q)
  {
    assert |s| == |multiset(s)| == |multiset(t)| == |t|;
    SortedUnique(SortAscending(s), SortAscending(t));
  }

  lemma ReferenceSampleSorted()
    ensures Sorted([10.0, 20.0, 30.0, 40.0])
  {
  }

  /** The reference value 25 for the median of [10, 20, 30, 40]: halfway between 20 and 30. */
  lemma QuantileReferenceMedian()
    ensures Quantile([10.0, 20.0, 30.0, 40.0], 0.5) == 25.0
  {
    var s := [10.0, 20.0, 30.0, 40.0];
    ReferenceSampleSorted();
    SortAscendingOfSorted(s);
    assert Position(4, 0.5) == 1.5;
    assert (1.5).Floor == 1;
    assert Interpolate(s, 0.5) == 20.0 + 0.5 * (30.0 - 20.0);
  }

  /** The reference value 40 for q = 1 over [10, 20, 30, 40]: the last element. */
  lemma QuantileReferenceMax()
    ensures Quantile([10.0, 20.0, 30.0, 40.0], 1.0) == 40.0
  {
    var s := [10.0, 20.0, 30.0, 40.0];
    ReferenceSampleSorted();
    SortAscendingOfSorted(s);
    assert Position(4, 1.0) == 3.0;
    assert (3.0).Floor == 3;
    assert Interpolate(s, 1.0) == 40.0;
  }
}

=== FILE: receipt.dfy ===
/**
 * Receipt assembly: the claim, three evidence lines, the caveat, the action,
 * the telemetry snapshot, the thresholds, the verdict and the next patch to
 * try, and the main routine that computes them from a batch of events.
 */
module Receipts {
  import opened Telemetry
  import opened Numeric
  import opened Quantiles
  import opened Reducer
  import opened Health
  import opened Advisor

  /**
   * The three `because` lines, by the numbers they show:
   * `delivery <pct>% in last 10m`, `latency p50 <ms>ms / p95 <ms>ms`,
   * `reach <n> peers · median hops <h>`.
   */
  datatype Evidence =
    | DeliveryPercent(percent: real)
    | LatencyPercentiles(p50Ms: int, p95Ms: int)
    | Reach(peers: nat, medianHops: real)

  datatype TelemRadio = TelemRadio(txDbm: int, advIntervalMs: int, ttl: int, wifiDirect: bool)

  datatype Telem = Telem(
    windowSec: int,
    deliverySuccess: real,
    latencyP50: int,
    latencyP95: int,
    reachPeers: nat,
    hopsMedian: real,
    radio: TelemRadio)

  datatype NextTry = NextTry(patch: seq<PatchEntry>)

  datatype Receipt = Receipt(
    claim: string,
    because: seq<Evidence>,
    but: seq<Reason>,
    so: string,
    telem: Telem,
    threshold: Thresholds,
    model: string,
    status: Status,
    nextTry: Option<NextTry>)

  const Claim := "Mesh is live and healthy"
  const ModelTag := "mesh/bluetooth-wifi-store-and-forward"

  /** The receipt object literal, for a verdict, a reason and an action already chosen. */
  function Assemble(w: WindowStats, windowSec: int, th: Thresholds, status: Status, why: Reason, so: string)
    : (r: Receipt)
    ensures |r.because| == 3
    ensures r.but == [] <==> status == Green
    ensures r.nextTry == None <==> status == Green
    ensures r.status == status && r.so == so && r.threshold == th
  {
    Receipt(
      Claim,
      [ DeliveryPercent(w.Delivery() * 100.0),
        LatencyPercentiles(Trunc(w.P50()), Trunc(w.P95())),
        Reach(|w.peers|, w.MedianHops()) ],
      if status == Green then [] else [why],
      so,
      Telem(
        windowSec,
        w.Delivery(),
        JsRound(w.P50()),
        JsRound(w.P95()),
        |w.peers|,
        w.MedianHops(),
        TelemRadio(Trunc(w.radio.txDbm), Trunc(w.radio.advIntervalMs), w.radio.ttl, w.radio.wifiDirect)),
      th,
      ModelTag,
      status,
      if status == Green then None
      else Some(NextTry(SuggestPatch(w.Delivery(), w.P95(), w.MedianHops(), w.radio, th))))
  }

  /** The receipt the script writes for the window statistics `w`. */
  function ReceiptFor(w: WindowStats, windowSec: int, th: Thresholds): (r: Receipt)
    ensures r.status == Red <==> w.Delivery() < RedDelivery || w.latencies == []
    ensures r.status == Green <==>
      RedDelivery <= w.Delivery() && w.latencies != [] && th.delivery <= w.Delivery() && w.P95() <= th.p95Ms
    ensures r.claim == Claim && r.model == ModelTag && r.threshold == th
    ensures r.telem.windowSec == windowSec && r.telem.reachPeers == |w.peers|
  {
    var status := Classify(w.Delivery(), w.P95(), |w.latencies|, th);
    Assemble(w, windowSec, th, status,
             ReasonFor(status, w.Delivery(), w.P95(), th),
             ActionFor(status, w.Delivery(), w.P95(), w.radio, th))
  }

  /** The status block: amber, overwritten by red and then by green. */
  method ChooseStatus(delivery: real, p95: real, latencyCount: nat, th: Thresholds) returns (status: Status)
    ensures status == Classify(delivery, p95, latencyCount, th)
  {
    status := Amber;
    if delivery < RedDelivery || latencyCount == 0 {
      status := Red;
    } else if delivery >= th.delivery && p95 <= th.p95Ms {
      status := Green;
    }
  }

  /** The reason and action blocks: empty unless the status is not green, then one branch of three. */
  method ChooseAdvice(status: Status, delivery: real, p95: real, radio: Radio, th: Thresholds)
    returns (why: Reason, so: string)
    ensures why == ReasonFor(status, delivery, p95, th)
    ensures so == ActionFor(status, delivery, p95, radio, th)
  {
    why := NoReason;
    if status != Green {
      if delivery < th.delivery {
        why := DeliveryBelow(JsRound(delivery * 100.0), JsRound(th.delivery * 100.0));
      } else if p95 > th.p95Ms {
        why := LatencyAbove(Trunc(p95), th.p95Ms);
      } else {
        why := MeshUnstable;
      }
    }

    so := "";
    if status != Green {
      if delivery < th.delivery {
        so := if radio.wifiDirect then BoostedAction else EnableWifiAction;
      } else if p95 > th.p95Ms {
        so := LatencyAction;
      } else {
        so := SteadyAction;
      }
    } else {
      so := HoldAction;
    }
  }

  /** The main routine: reduce the window, pick status, reason and action, and assemble the receipt. */
  method EmitReceipt(events: seq<Event>, now: int, windowSec: int, th: Thresholds) returns (receipt: Receipt)
    ensures receipt == ReceiptFor(StatsOf(Window(events, now, windowSec)), windowSec, th)
  {
    var w := Reduce(events, now, windowSec);
    var delivery := w.Delivery();
    var p95 := w.P95();
    var status := ChooseStatus(delivery, p95, |w.latencies|, th);
    var why, so := ChooseAdvice(status, delivery, p95, w.radio, th);
    receipt := Assemble(w, windowSec, th, status, why, so);
  }

  /**
   * Every receipt has three evidence lines; the caveat and the next patch are
   * present exactly when the verdict is not green, and then the caveat, the
   * action and the patch all report the same branch of the advisor.
   */
  lemma ReceiptConsistent(w: WindowStats, windowSec: int, th: Thresholds)
    ensures var r := ReceiptFor(w, windowSec, th);
      |r.because| == 3 &&
      (r.but == [] <==> r.status == Green) &&
      (r.nextTry == None <==> r.status == Green) &&
      (r.status == Green ==> r.so == HoldAction)
    ensures var r := ReceiptFor(w, windowSec, th);
      r.status != Green ==>
        |r.but| == 1 && |r.nextTry.value.patch| >= 1 &&
        ReasonBranch(r.but[0]) == ActionBranch(r.so) &&
        PatchShape(ReasonBranch(r.but[0]), r.nextTry.value.patch)
  {
    var status := Classify(w.Delivery(), w.P95(), |w.latencies|, th);
    ReasonAndActionAgree(status, w.Delivery(), w.P95(), w.radio, th);
    if status != Green {
      PatchFollowsDiagnosis(status, w.Delivery(), w.P95(), w.MedianHops(), w.radio, th);
    }
  }

  /** A healthy window: 24 of 25 delivered and every latency within 2000 ms gives green, no caveat, no patch. */
  lemma HealthyWindowIsGreen(w: WindowStats)
    requires |w.sentIds| == 25 && |w.deliveredIds| == 24
    requires w.latencies != [] && forall x :: x in w.latencies ==> x <= 2000.0
    ensures var r := ReceiptFor(w, DefaultWindowSec, DefaultThresholds);
      r.telem.windowSec == 600 && r.status == Green && r.but == [] && r.nextTry == None && r.so == HoldAction
  {
    assert w.Delivery() == 24.0 / 25.0;
    QuantileWithinRange(w.latencies, 0.95);
  }

  /** 10 of 25 delivered with Wi-Fi Direct off: the caveat is "delivery 40% < 95%" and the patch turns Wi-Fi Direct on. */
  lemma LowDeliveryAdvice(w: WindowStats)
    requires |w.sentIds| == 25 && |w.deliveredIds| == 10 && !w.radio.wifiDirect
    ensures var r := ReceiptFor(w, DefaultWindowSec, DefaultThresholds);
      r.status != Green && r.but == [DeliveryBelow(40, 95)] && r.so == EnableWifiAction &&
      r.nextTry.value.patch[0] == PatchEntry(WifiDirectKey, SetFlag(true))
  {
    assert w.Delivery() == 10.0 / 25.0 == 0.4;
    assert JsRound(0.4 * 100.0) == 40 by {
      assert 0.4 * 100.0 + 0.5 == 40.5;
    }
    assert JsRound(0.95 * 100.0) == 95 by {
      assert 0.95 * 100.0 + 0.5 == 95.5;
    }
  }

  /**
   * An empty log is red, and the reason comes from the delivery branch
   * (delivery 0 is below the threshold), not from the low-sample fallback.
   */
  lemma EmptyLogReceipt(now: int)
    ensures var r := ReceiptFor(StatsOf(Window([], now, DefaultWindowSec)), DefaultWindowSec, DefaultThresholds);
      r.status == Red && r.but == [DeliveryBelow(0, 95)] && r.so == EnableWifiAction &&
      r.nextTry == Some(NextTry([PatchEntry(WifiDirectKey, SetFlag(true)),
                                 PatchEntry(AdvIntervalKey, SetNumber(500.0))]))
  {
    assert JsRound(0.0 * 100.0) == 0;
    assert JsRound(0.95 * 100.0) == 95 by {
      assert 0.95 * 100.0 + 0.5 == 95.5;
    }
    assert Trunc(600.0) == 600;
  }
}

=== FILE: reducer.dfy ===
/**
 * The window reducer: the loop of the receipt script that folds the kept
 * events into Sets of sent ids, delivered ids and peers, arrays of latency
 * and hop samples and the current radio configuration, and the statistics
 * derived from them.
 */
module Reducer {
  import opened Telemetry
  import opened Quantiles

  /** The accumulators after the loop, and the statistics the script derives from them. */
  datatype WindowStats = WindowStats(
    sentIds: set<string>,
    deliveredIds: set<string>,
    peers: set<string>,
    latencies: seq<real>,
    hops: seq<real>,
    radio: Radio)
  {
    /** `delivery = sent.size ? delivered.size / sent.size : 0` */
    function Delivery(): (d: real)
      ensures 0.0 <= d
      ensures sentIds == {} ==> d == 0.0
      ensures sentIds != {} ==> d * |sentIds| as real == |deliveredIds| as real
    {
      DeliveryRatio(|deliveredIds|, |sentIds|)
    }

    /** The median latency: 0 without samples, else between the fastest and the slowest. */
    function P50(): (p: real)
      ensures latencies == [] ==> p == 0.0
      ensures latencies != [] ==> SeqMin(latencies) <= p <= SeqMax(latencies)
    {
      var p := Quantile(latencies, 0.5);
      if latencies == [] then p else QuantileWithinRange(latencies, 0.5); p
    }

    /** The 95th-percentile latency: 0 without samples, else between the fastest and the slowest. */
    function P95(): (p: real)
      ensures latencies == [] ==> p == 0.0
      ensures latencies != [] ==> SeqMin(latencies) <= p <= SeqMax(latencies)
    {
      var p := Quantile(latencies, 0.95);
      if latencies == [] then p else QuantileWithinRange(latencies, 0.95); p
    }

    /** The median hop count: 0 without samples, else between the fewest and the most hops. */
    function MedianHops(): (h: real)
      ensures hops == [] ==> h == 0.0
      ensures hops != [] ==> SeqMin(hops) <= h <= SeqMax(hops)
    {
      var h := Quantile(hops, 0.5);
      if hops == [] then h else QuantileWithinRange(hops, 0.5); h
    }
  }

  /** Delivered over sent, with 0 when nothing was sent; no intersection is taken. */
  function DeliveryRatio(delivered: nat, sent: nat): (r: real)
    ensures 0.0 <= r
    ensures sent == 0 ==> r == 0.0
    ensures sent > 0 ==> r * sent as real == delivered as real
  {
    if sent == 0 then 0.0 else delivered as real / sent as real
  }

  /** What the reducer's accumulators hold after folding the kept events `recent`. */
  function StatsOf(recent: seq<Event>): (w: WindowStats)
    ensures |w.sentIds| <= CountOf(recent, Sent)
    ensures |w.deliveredIds| <= CountOf(recent, Delivered)
    ensures |w.peers| <= CountOf(recent, Peers)
    ensures |w.latencies| <= CountOf(recent, Delivered) && |w.hops| <= CountOf(recent, Delivered)
  {
    IdsBounded(recent, Sent);
    IdsBounded(recent, Delivered);
    IdsBounded(recent, Peers);
    WindowStats(
      Ids(recent, Sent),
      Ids(recent, Delivered),
      Ids(recent, Peers),
      Samples(recent, Latency),
      Samples(recent, Hops),
      RadioAfter(recent, DefaultRadio))
  }

  /** The filter and the fold of the script's main routine, for a clock reading `now`. */
  method Reduce(events: seq<Event>, now: int, windowSec: int) returns (w: WindowStats)
    ensures w == StatsOf(Window(events, now, windowSec))
  {
    var recent := Window(events, now, windowSec);
    var sent: set<string> := {};
    var delivered: set<string> := {};
    var latencies: seq<real> := [];
    var hopsArr: seq<real> := [];
    var peers: set<string> := {};
    var radio := DefaultRadio;
    for i := 0 to |recent|
      invariant sent == Ids(recent[..i], Sent)
      invariant delivered == Ids(recent[..i], Delivered)
      invariant peers == Ids(recent[..i], Peers)
      invariant latencies == Samples(recent[..i], Latency)
      invariant hopsArr == Samples(recent[..i], Hops)
      invariant radio == RadioAfter(recent[..i], DefaultRadio)
    {
      var e := recent[i];
      if e.MessageSent? && Truthy(e.id) {
        sent := sent + {e.id.value};
      }
      if e.MessageDelivered? && Truthy(e.id) {
        delivered := delivered + {e.id.value};
        if e.latencyMs.Some? {
          latencies := latencies + [e.latencyMs.value];
        }
        if e.hops.Some? {
          hopsArr := hopsArr + [e.hops.value];
        }
      }
      if e.PeerSeen? && Truthy(e.peer) {
        peers := peers + {e.peer.value};
      }
      if e.RadioConfig? {
        radio := Merge(radio, e);
      }
      assert recent[..i + 1] == recent[..i] + [e];
      IdsSnoc(recent[..i], e, Sent);
      IdsSnoc(recent[..i], e, Delivered);
      IdsSnoc(recent[..i], e, Peers);
    }
    assert recent[..|recent|] == recent;
    w := WindowStats(sent, delivered, peers, latencies, hopsArr, radio);
  }

  /** With no sent ids the delivery ratio is 0 (no division by zero). */
  lemma DeliveryWithoutSends(w: WindowStats)
    requires w.sentIds == {}
    ensures w.Delivery() == 0.0
  {
  }

  /** The ratio is at most 1 when every delivered id was also sent in the window. */
  lemma DeliveryAtMostOne(w: WindowStats)
    requires w.deliveredIds <= w.sentIds
    ensures 0.0 <= w.Delivery() <= 1.0
  {
    if w.sentIds != {} {
      var d, s := |w.deliveredIds| as real, |w.sentIds| as real;
      assert |w.deliveredIds| <= |w.sentIds| by {
        SubsetCardinality(w.deliveredIds, w.sentIds);
      }
      assert w.Delivery() == d / s;
    }
  }

  lemma SubsetCardinality<T>(a: set<T>, b: set<T>)
    requires a <= b
    ensures |a| <= |b|
  {
    assert b == a + (b - a);
  }

  /** Delivered ids that were never sent push the ratio above 1: two deliveries, one send, ratio 2. */
  lemma DeliveryCanExceedOne()
    ensures StatsOf([MessageDelivered(Some("a"), None, None, None),
                     MessageDelivered(Some("b"), None, None, None),
                     MessageSent(Some("a"), None)]).Delivery() == 2.0
  {
    var e0 := MessageDelivered(Some("a"), None, None, None);
    var e1 := MessageDelivered(Some("b"), None, None, None);
    var e2 := MessageSent(Some("a"), None);
    assert [e0, e1, e2] == [e0, e1] + [e2];
    assert [e0, e1] == [e0] + [e1];
    assert [e0] == [] + [e0];
    IdsSnoc([], e0, Delivered);
    IdsSnoc([e0], e1, Delivered);
    IdsSnoc([e0, e1], e2, Delivered);
    IdsSnoc([], e0, Sent);
    IdsSnoc([e0], e1, Sent);
    IdsSnoc([e0, e1], e2, Sent);
    var delivered := Ids([e0, e1, e2], Delivered);
    var sent := Ids([e0, e1, e2], Sent);
    assert delivered == {"a", "b"};
    assert sent == {"a"};
    assert |delivered| == 2 && |sent| == 1;
  }

  /** An event that is neither counted, sampled nor a radio update leaves every accumulator unchanged. */
  lemma InertEventIgnored(es: seq<Event>, e: Event)
    requires !e.RadioConfig? && !Counted(e, Sent) && !Counted(e, Delivered) && !Counted(e, Peers)
    ensures StatsOf(es + [e]) == StatsOf(es)
  {
    assert (es + [e])[..|es|] == es;
    IdsSnoc(es, e, Sent);
    IdsSnoc(es, e, Delivered);
    IdsSnoc(es, e, Peers);
  }

  /** Sending an id already sent in the window changes nothing, so duplicates do not inflate the ratio. */
  lemma RepeatedSendIgnored(es: seq<Event>, e: Event)
    requires Counted(e, Sent) && Key(e, Sent) in Ids(es, Sent)
    ensures StatsOf(es + [e]) == StatsOf(es)
  {
    assert (es + [e])[..|es|] == es;
    RepeatCountsOnce(es, e, Sent);
    IdsSnoc(es, e, Delivered);
    IdsSnoc(es, e, Peers);
  }

  /** A repeated delivery adds its samples but leaves the delivered set, and so the ratio, unchanged. */
  lemma RepeatedDeliveryKeepsRatio(es: seq<Event>, e: Event)
    requires Counted(e, Delivered) && Key(e, Delivered) in Ids(es, Delivered)
    ensures StatsOf(es + [e]).Delivery() == StatsOf(es).Delivery()
    ensures |StatsOf(es + [e]).latencies| == |StatsOf(es).latencies| + (if e.latencyMs.Some? then 1 else 0)
  {
    assert (es + [e])[..|es|] == es;
    RepeatCountsOnce(es, e, Delivered);
    IdsSnoc(es, e, Sent);
  }

  /** With no events at all every statistic takes its zero or seed default. */
  lemma EmptyLogDefaults(now: int, windowSec: int)
    ensures var w := StatsOf(Window([], now, windowSec));
      w.Delivery() == 0.0 && w.latencies == [] && w.P50() == 0.0 && w.P95() == 0.0 &&
      w.MedianHops() == 0.0 && |w.peers| == 0 && w.radio == DefaultRadio
  {
  }

  /** The median latency never exceeds the 95th percentile. */
  lemma MedianAtMostP95(w: WindowStats)
    ensures w.P50() <= w.P95()
  {
    QuantileMonotone(w.latencies, 0.5, 0.95);
  }
}

=== FILE: telemetry.dfy ===
/**
 * Mesh telemetry events and the specification of the window reducer: which
 * events fall inside the trailing window, and what each accumulator of the
 * reducer holds after folding a sequence of kept events.
 */
module Telemetry {

  datatype Option<T> = None | Some(value: T)

  /** A JavaScript string field is truthy exactly when it is present and non-empty. */
  predicate Truthy(s: Option<string>) {
    s.Some? && s.value != ""
  }

  /**
   * One event record. Every field may be absent; `ts` is Unix seconds.
   * Numbers are `real`, except `ttl`, an integer. Fields the script never
   * reads (such as `rssi`) are not modelled. A record whose `type` is none
   * of the four known kinds is `Unrecognised`.
   */
  datatype Event =
    | MessageSent(id: Option<string>, ts: Option<int>)
    | MessageDelivered(id: Option<string>, hops: Option<real>, latencyMs: Option<real>, ts: Option<int>)
    | PeerSeen(peer: Option<string>, ts: Option<int>)
    | RadioConfig(txDbm: Option<real>, advIntervalMs: Option<real>, ttl: Option<int>,
                  wifiDirect: Option<bool>, ts: Option<int>)
    | Unrecognised(ts: Option<int>)

  /** The radio configuration the script reads: transmit power, advertisement interval, TTL, Wi-Fi Direct. */
  datatype Radio = Radio(txDbm: real, advIntervalMs: real, ttl: int, wifiDirect: bool)

  /** The seed `{tx_dbm: 0, adv_interval_ms: 600, ttl: 3, wifi_direct: false}`. */
  const DefaultRadio := Radio(0.0, 600.0, 3, false)

  /** The rolling window length of the script, ten minutes. */
  const DefaultWindowSec := 600

  // ---------------------------------------------------------------- window

  /** `e.ts || T`: a missing or zero (falsy) timestamp counts as `now`. */
  function EffectiveTs(e: Event, now: int): (t: int)
    ensures e.ts.Some? && e.ts.value != 0 ==> t == e.ts.value
    ensures e.ts.None? || e.ts.value == 0 ==> t == now
  {
    if e.ts.Some? && e.ts.value != 0 then e.ts.value else now
  }

  /** An event without a truthy timestamp is as old as `now` itself, so it is kept unless the window is negative. */
  predicate InWindow(e: Event, now: int, windowSec: int)
    ensures InWindow(e, now, windowSec) <==>
      if e.ts.None? || e.ts.value == 0 then 0 <= windowSec else now - e.ts.value <= windowSec
  {
    now - EffectiveTs(e, now) <= windowSec
  }

  /** `events.filter(...)`: the events of the trailing window, in their original order. */
  function Window(events: seq<Event>, now: int, windowSec: int): (recent: seq<Event>)
    ensures |recent| <= |events|
  {
    if events == [] then []
    else
      (if InWindow(events[0], now, windowSec) then [events[0]] else [])
      + Window(events[1..], now, windowSec)
  }

  /**
   * An event is kept exactly when it has no (truthy) timestamp and the window
   * is not negative, or when it is at most `windowSec` seconds old.
   */
  lemma {:induction false} WindowKeeps(events: seq<Event>, now: int, windowSec: int, e: Event)
    ensures e in Window(events, now, windowSec) <==>
      e in events &&
      (if e.ts.None? || e.ts.value == 0 then 0 <= windowSec else now - e.ts.value <= windowSec)
  {
    if events != [] {
      WindowKeeps(events[1..], now, windowSec, e);
      assert events == [events[0]] + events[1..];
    }
  }

  /** Filtering commutes with concatenation, so the kept events keep their relative order. */
  lemma {:induction false} WindowConcat(xs: seq<Event>, ys: seq<Event>, now: int, windowSec: int)
    ensures Window(xs + ys, now, windowSec) == Window(xs, now, windowSec) + Window(ys, now, windowSec)
  {
    if xs != [] {
      assert (xs + ys)[0] == xs[0] && (xs + ys)[1..] == xs[1..] + ys;
      WindowConcat(xs[1..], ys, now, windowSec);
      var head := if InWindow(xs[0], now, windowSec) then [xs[0]] else [];
      assert Window(xs + ys, now, windowSec) == head + (Window(xs[1..], now, windowSec) + Window(ys, now, windowSec));
    } else {
      assert xs + ys == ys;
    }
  }

  // ---------------------------------------------------------------- id sets

  /** The three Sets of the reducer: sent ids, delivered ids and peers. */
  datatype Tally = Sent | Delivered | Peers

  /** The guard of `sent.add`, `delivered.add` and `peers.add`: right kind and a truthy key. */
  predicate Counted(e: Event, k: Tally) {
    match k
    case Sent => e.MessageSent? && Truthy(e.id)
    case Delivered => e.MessageDelivered? && Truthy(e.id)
    case Peers => e.PeerSeen? && Truthy(e.peer)
  }

  function Key(e: Event, k: Tally): string
    requires Counted(e, k)
  {
    if k == Peers then e.peer.value else e.id.value
  }

  /** The distinct keys of the counted events: what the JavaScript Set holds. */
  function Ids(es: seq<Event>, k: Tally): (ids: set<string>)
    ensures es == [] ==> ids == {}
    ensures forall i :: 0 <= i < |es| && Counted(es[i], k) ==> Key(es[i], k) in ids
  {
    set i | 0 <= i < |es| && Counted(es[i], k) :: Key(es[i], k)
  }

  /** One more event adds its key to the set if it is counted, and nothing otherwise. */
  lemma IdsSnoc(es: seq<Event>, e: Event, k: Tally)
    ensures Ids(es + [e], k) == Ids(es, k) + (if Counted(e, k) then {Key(e, k)} else {})
  {
    var es' := es + [e];
    forall x | x in Ids(es', k)
      ensures x in Ids(es, k) + (if Counted(e, k) then {Key(e, k)} else {})
    {
      var i :| 0 <= i < |es'| && Counted(es'[i], k) && Key(es'[i], k) == x;
      if i < |es| {
        assert es'[i] == es[i];
      }
    }
    forall x | x in Ids(es, k) ensures x in Ids(es', k) {
      var i :| 0 <= i < |es| && Counted(es[i], k) && Key(es[i], k) == x;
      assert es'[i] == es[i];
    }
    if Counted(e, k) {
      assert es'[|es|] == e;
    }
  }

  /** A repeated id (or peer) does not change the set: each distinct key counts once. */
  lemma RepeatCountsOnce(es: seq<Event>, e: Event, k: Tally)
    requires Counted(e, k) && Key(e, k) in Ids(es, k)
    ensures Ids(es + [e], k) == Ids(es, k)
  {
    IdsSnoc(es, e, k);
  }

  /** An event with a missing or empty key (or of another kind) leaves the set unchanged. */
  lemma UncountedIgnored(es: seq<Event>, e: Event, k: Tally)
    requires !Counted(e, k)
    ensures Ids(es + [e], k) == Ids(es, k)
  {
    IdsSnoc(es, e, k);
  }

  /** A Set holds at most one key per counted event. */
  lemma {:induction false} IdsBounded(es: seq<Event>, k: Tally)
    ensures |Ids(es, k)| <= CountOf(es, k)
  {
    if es != [] {
      var init := es[..|es| - 1];
      IdsBounded(init, k);
      assert es == init + [es[|es| - 1]];
      IdsSnoc(init, es[|es| - 1], k);
    }
  }

  // ---------------------------------------------------------------- samples

  /** The two sample arrays of the reducer: latencies and hop counts. */
  datatype Measure = Latency | Hops

  /** The value `latencies.push` / `hopsArr.push` takes from an event, if any. */
  function SampleOf(e: Event, m: Measure): Option<real> {
    if e.MessageDelivered? && Truthy(e.id) then
      (if m == Latency then e.latencyMs else e.hops)
    else None
  }

  /**
   * The samples pushed while folding `es`, in event order. There are at most
   * as many as delivered events with a truthy id.
   */
  function Samples(es: seq<Event>, m: Measure): (r: seq<real>)
    ensures |r| <= CountOf(es, Delivered)
  {
    if es == [] then []
    else
      Samples(es[..|es| - 1], m) +
      (match SampleOf(es[|es| - 1], m) case Some(v) => [v] case None => [])
  }

  /** The number of events in `es` counted for tally `k`. */
  function CountOf(es: seq<Event>, k: Tally): nat {
    if es == [] then 0
    else CountOf(es[..|es| - 1], k) + (if Counted(es[|es| - 1], k) then 1 else 0)
  }

  /** Every sample is the numeric field of some delivered event with a truthy id. */
  lemma {:induction false} SampleProvenance(es: seq<Event>, m: Measure, j: nat)
    requires j < |Samples(es, m)|
    ensures exists i :: (0 <= i < |es| && es[i].MessageDelivered? && Truthy(es[i].id) &&
                         SampleOf(es[i], m) == Some(Samples(es, m)[j]))
  {
    var init := es[..|es| - 1];
    if j < |Samples(init, m)| {
      SampleProvenance(init, m, j);
      var i :| 0 <= i < |init| && init[i].MessageDelivered? && Truthy(init[i].id) &&
        SampleOf(init[i], m) == Some(Samples(init, m)[j]);
      assert es[i] == init[i];
    } else {
      assert SampleOf(es[|es| - 1], m) == Some(Samples(es, m)[j]);
    }
  }

  // ---------------------------------------------------------------- radio

  /** `radio = {...radio, ...e}`: the fields present on a radio event override the current ones. */
  function Merge(r: Radio, e: Event): (m: Radio)
    ensures forall f :: FieldOf(m, f) == (if Writes(e, f) then Written(e, f) else FieldOf(r, f))
    ensures !e.RadioConfig? ==> m == r
  {
    if e.RadioConfig? then
      Radio(
        if e.txDbm.Some? then e.txDbm.value else r.txDbm,
        if e.advIntervalMs.Some? then e.advIntervalMs.value else r.advIntervalMs,
        if e.ttl.Some? then e.ttl.value else r.ttl,
        if e.wifiDirect.Some? then e.wifiDirect.value else r.wifiDirect)
    else r
  }

  /** No event of `es` is a radio event. */
  predicate NoRadioEvents(es: seq<Event>) {
    es == [] || (!es[|es| - 1].RadioConfig? && NoRadioEvents(es[..|es| - 1]))
  }

  /** The radio configuration after folding `es` onto `seed`, in event order; without radio events, the seed. */
  function RadioAfter(es: seq<Event>, seed: Radio): (r: Radio)
    ensures es == [] ==> r == seed
    ensures NoRadioEvents(es) ==> r == seed
  {
    if es == [] then seed else Merge(RadioAfter(es[..|es| - 1], seed), es[|es| - 1])
  }

  /** The four radio fields, and a value of any of them. */
  datatype RadioField = TxDbm | AdvInterval | Ttl | WifiDirect
  datatype FieldValue = Power(dbm: real) | Interval(ms: real) | TimeToLive(n: int) | Flag(on: bool)

  function FieldOf(r: Radio, f: RadioField): FieldValue {
    match f
    case TxDbm => Power(r.txDbm)
    case AdvInterval => Interval(r.advIntervalMs)
    case Ttl => TimeToLive(r.ttl)
    case WifiDirect => Flag(r.wifiDirect)
  }

  /** Whether the event is a radio event that sets field `f`. */
  predicate Writes(e: Event, f: RadioField) {
    e.RadioConfig? &&
    match f
    case TxDbm => e.txDbm.Some?
    case AdvInterval => e.advIntervalMs.Some?
    case Ttl => e.ttl.Some?
    case WifiDirect => e.wifiDirect.Some?
  }

  function Written(e: Event, f: RadioField): FieldValue
    requires Writes(e, f)
  {
    match f
    case TxDbm => Power(e.txDbm.value)
    case AdvInterval => Interval(e.advIntervalMs.value)
    case Ttl => TimeToLive(e.ttl.value)
    case WifiDirect => Flag(e.wifiDirect.value)
  }

  /** Last write wins: a field takes the value of the last event that sets it. */
  lemma {:induction false} RadioLastWriteWins(es: seq<Event>, seed: Radio, f: RadioField, i: nat)
    requires i < |es| && Writes(es[i], f)
    requires forall j :: i < j < |es| ==> !Writes(es[j], f)
    ensures FieldOf(RadioAfter(es, seed), f) == Written(es[i], f)
  {
    var init := es[..|es| - 1];
    if i < |es| - 1 {
      forall j | i < j < |init| ensures !Writes(init[j], f) {
        assert init[j] == es[j];
      }
      RadioLastWriteWins(init, seed, f, i);
    }
  }

  /** A field no event sets keeps its seed value. */
  lemma {:induction false} RadioUnwrittenKeepsSeed(es: seq<Event>, seed: Radio, f: RadioField)
    requires forall j :: 0 <= j < |es| ==> !Writes(es[j], f)
    ensures FieldOf(RadioAfter(es, seed), f) == FieldOf(seed, f)
  {
    if es != [] {
      var init := es[..|es| - 1];
      forall j | 0 <= j < |init| ensures !Writes(init[j], f) {
        assert init[j] == es[j];
      }
      RadioUnwrittenKeepsSeed(init, seed, f);
    }
  }
}
